=== FILE: README.md ===
# Kinsluv live stream: coin, gift and chat core

This project models the core of the Kinsluv live-stream server in Dafny:

- the SQLite store of `db.js`, as the class `Store.Db` over a map of users and sequences of messages, gifts and transactions;
- the Socket.IO handlers `join`, `message`, `gift` and `disconnect` of `server.js`, as methods of `Server.Hub`;
- the admin routes that add coins, ban, unban and delete a message;
- the HTML escaper `esc` of `public/client.js`.

Each handler runs to completion, because better-sqlite3 is synchronous and no handler awaits. So each handler is one sequential method over the store, the socket's session (`Server.Session`: the user cached at join and the set of joined rooms) and an outbox. The outbox is a sequence of emitted events: `ToSocket` goes to the sender only, `ToRoom` is a room broadcast.

Modules:

- `Wrappers`: `Option`.
- `Tables`: row types, the gift catalog and the pure table operations: balance and ban-flag updates, the gift lookup, and the "latest N messages of a room" pipeline (filter, sort by time descending, limit, reverse).
- `Store`: the database class and its invariant. The invariant covers the primary keys of all four tables (user, message, gift and transaction ids) and the UNIQUE username.
- `Server`: sessions, the hub with its handlers and the admin routes.
- `Html`: `esc`, its inverse and its properties.

Inputs the server takes from its environment are parameters of the methods:

- `uuidv4()` and `Date.now()` results;
- the outcome of `jwt.verify`, as a map from accepted tokens to user ids;
- the admin password, whether from the header or from the environment.

Where the code does not do what its own checks and statements suggest, or where a detail is easy to misread, the model follows the code:

- The ban flag that `message` and `gift` test is the one cached in the session at join. The session caches a user only after the join's ban check has passed, so that cached flag is always false and the two checks never fire (`Server.Hub.OnJoin` keeps `CachesUnbanned`). A refused re-join does not clear the cached user either. So a user banned while joined keeps chatting and sending gifts on that socket; the ban only stops a new join from binding (see "## Findings").
- A session stays in every room it has joined until the socket closes. The `disconnect` listener then reads a room list that Socket.IO has already emptied, so it sends no "left" notice at all (see "## Findings").
- A token that `jwt.verify` rejects throws. The `catch` then answers "Invalid token", and the id+username fallback is not tried.
- The admin add-coins route applies any non-zero amount without a balance check. So it can take a balance below zero (`Tables.CreditCanOverdraw`). The gift path cannot (`Tables.DebitKeepsNonNegative`, `Server.Hub.OnGift`).
- A message or transaction id that is already stored makes the INSERT throw. Nothing in the `message` or `gift` listener catches it:
  - for `message`, nothing is stored or broadcast (`SaveFailed`);
  - for `gift`, the throw comes after the debit, so the debit stays and no transaction or broadcast follows (`RecordFailed`).
- `LIMIT` with a negative value means no limit in SQLite, and `Tables.Take` models it so.

## Model

| member | source | states |
|---|---|---|
| Store.Db.constructor | db.js:9-45 | a new database has four empty tables and satisfies the key constraints |
| Store.Db.Init | db.js:47-53 | the gift table becomes the three-gift catalog when it was empty and is left alone otherwise; other tables unchanged |
| Tables.SeedGifts | db.js:47-53 | seeding yields exactly Rose/5, Heart/20, Diamond/100 from an empty table and keeps a non-empty one; the result is never empty |
| Tables.SeedGiftsIdempotent | db.js:47-53 | calling `init` again changes nothing |
| Store.Db.CreateUser | db.js:56-60 | a fresh id and fresh username insert a row with 100 coins and no ban; otherwise the users table is unchanged and the result is the row with that id, failing that the row with that username |
| Store.Db.GetUserById | db.js:62-64 | a user is returned exactly when the id is stored, and it is that row without its password hash |
| Store.Db.GetUserByName | db.js:66-68 | a user is returned exactly when the username is taken, and it is that row without its password hash |
| Store.Db.ChangeCoins | db.js:74-77 | the users table becomes `Credit` of the old one; the reply exists exactly when the id is stored and carries the new balance |
| Tables.Credit | db.js:75 | the update keeps the set of user ids and adds the delta to that id's balance |
| Tables.CreditFrame | db.js:75 | a balance update leaves every other user and every other field of the row unchanged |
| Tables.CreditCompose | db.js:74-77 | two balance updates of one user equal one update by their sum |
| Tables.CreditCanOverdraw | server.js:81-86 | an update whose delta exceeds the balance leaves a negative balance |
| Store.Db.BanUser | db.js:79-82 | the users table becomes `WithBanned(…, true)` of the old one; the reply exists exactly when the id is stored and is flagged banned |
| Store.Db.UnbanUser | db.js:84-87 | the users table becomes `WithBanned(…, false)` of the old one; the reply exists exactly when the id is stored and is not flagged |
| Tables.WithBanned | db.js:80 | setting the flag keeps the set of ids and sets that id's flag |
| Tables.WithBannedFrame | db.js:79-87 | ban and unban leave other users, and coins, username and role of that user, unchanged |
| Tables.WithBannedIdempotent | db.js:79-87 | banning twice (or unbanning twice) is the same as once |
| Tables.BanUnbanRestores | db.js:79-87 | ban then unban restores a previously unbanned user exactly |
| Store.Db.SaveMessage | db.js:89-91 | succeeds exactly when the id is unused, and then appends exactly the given message; nothing else changes |
| Store.Db.RecentMessages | db.js:93-95 | every message returned is stored and belongs to the room, oldest first |
| Tables.InRoom | db.js:94 | the filter keeps exactly the messages of the room, as a sub-multiset of the table |
| Tables.InsertDesc | db.js:94 | inserting into a time-descending list keeps it descending and adds exactly one element |
| Tables.SortDesc | db.js:94 | `ORDER BY time DESC` yields a descending permutation of its input |
| Tables.Take | db.js:94 | `LIMIT` keeps the first `limit` rows, or all of them when the limit is negative or large |
| Tables.Reverse | db.js:94 | `.reverse()` maps position i to position n-1-i |
| Tables.ReverseMultiset | db.js:94 | reversing keeps every row exactly once |
| Tables.RecentFromRoom | db.js:93-95 | the recent messages come from the table and from the room |
| Tables.RecentCount | db.js:93-95 | exactly `limit` messages are returned, or all of the room's when it has fewer or the limit is negative |
| Tables.RecentOldestFirst | db.js:93-95 | the result is in non-decreasing time order |
| Tables.RecentAreLatest | db.js:93-95 | no room message left out is newer than one returned |
| Tables.RecentSubMultiset | db.js:93-95 | no message is returned more often than it is stored |
| Store.Db.DeleteMessage | db.js:97-99 | the messages become `WithoutMessage` of the old ones, and ids stay distinct |
| Store.WithoutMessage | db.js:98 | the result keeps exactly the messages with another id and is no longer than the input; if nothing matched it is the input itself |
| Store.WithoutMessageUniqueIds | db.js:97-99 | deleting keeps message ids pairwise distinct |
| Store.Db.ListGifts | db.js:101-103 | the whole gifts table in table order, and no two gifts share an id |
| Tables.SeedGiftsKeepsDistinct | db.js:47-53 | seeding keeps the gift ids a key: the three catalog ids differ |
| Tables.FindGiftUnique | server.js:158-159 | with the gift id a key, the gift found is the only catalog entry with that id |
| Store.Db.RecordTransaction | db.js:105-107 | succeeds exactly when the id is unused, then appends exactly that transaction, and `stats().gifts` grows by one exactly then |
| Tables.FindGift | server.js:158-160 | no gift exactly when the id is absent or unmatched; otherwise a catalog gift with that id |
| Tables.FindGiftFirst | server.js:159 | the gift found is the first catalog entry with that id: no earlier entry has it |
| Server.RoomOrMain | server.js:126 | `payload.room \|\| 'main'`: the room when non-empty, `main` otherwise; never empty |
| Server.Hub.OnJoin | server.js:112-141 | rejected token → "Invalid token" to the sender; no user → "Auth required"; token user first, else fetch-or-create by id+username; banned → `banned` to the sender, session untouched; otherwise the session is bound, joins the room, the room gets "joined" and the sender a state with the gifts and the 100 latest messages; a session never caches a banned user |
| Server.Hub.BannedUserKeepsChatting | server.js:123-152 | after an admin bans a joined user, the re-join with their token is refused and the session's next message is still stored and broadcast |
| Server.Hub.OnMessageChecked | server.js:143-152 | with the ban re-read from the users table: a user banned now is ignored and nothing changes; otherwise the message is stored and the identical record broadcast, as in `message` |
| Server.Hub.OnGiftChecked | server.js:154-175 | with the ban re-read from the users table: a user banned now is ignored and nothing changes; a sent gift debits exactly its cost, appends one transaction and broadcasts the new balance; non-negative balances stay so |
| Server.Hub.OnMessage | server.js:143-152 | ignored without a bound, unbanned cached user; otherwise exactly one message is stored and the identical record is broadcast to its room only |
| Server.Hub.OnGift | server.js:154-175 | every failure before the debit changes no balance and no transaction; a sent gift debits exactly its cost, appends exactly one transaction and broadcasts the new balance; non-negative balances stay non-negative; a session bound to a stored user never hits the missing-row case |
| Server.Hub.Spend | server.js:164-174 | the debit is `Credit(users, id, -cost)` and leaves a balance ≥ 0; then either one transaction and one broadcast of that balance, or (reused id) neither |
| Tables.DebitKeepsNonNegative | server.js:161-164 | a debit guarded by the balance check leaves that balance, and every balance, non-negative |
| Server.Hub.OnDisconnect | server.js:177-182 | a bound session emits exactly one "left" notice to each joined room other than its own socket room, and nothing else |
| Server.Hub.OnDisconnectAsWritten | server.js:177-182 | once Socket.IO has emptied the session's rooms, the listener leaves the outbox unchanged |
| Server.LeftEachNone | server.js:179-180 | with no room left to notify, no notice is emitted |
| Server.LeftEachSome | server.js:179-180 | with a room to notify, its "left" notice is emitted |
| Server.LeftEachStep | server.js:180 | one more notice for a new room extends the "one notice per room" relation |
| Server.Hub.AdminAddCoins | server.js:81-86 | wrong password → unauthorized; missing id or zero/missing amount → 400; otherwise the balance changes by `amount` with no lower bound and the fresh row is returned |
| Server.Hub.AdminBan | server.js:88-92 | wrong password → unauthorized; missing id → 400; otherwise only that user's ban flag is set |
| Server.Hub.AdminUnban | server.js:94-98 | wrong password → unauthorized; missing id → 400; otherwise only that user's ban flag is cleared |
| Server.Hub.AdminDeleteMessage | server.js:100-105 | wrong password → unauthorized; missing id → 400; otherwise the messages with that id are removed |
| Html.Entity | public/client.js:24 | a special character becomes an entity `&…;` of at least four characters; any other character is kept |
| Html.EscapeText | public/client.js:24 | the escaped text is never shorter than the input |
| Html.Esc | public/client.js:24 | a missing or empty input yields the empty string; any other input yields its `EscapeText`, and the output never contains `<`, `>`, `"` or `'` |
| Html.EscapeIsSafe | public/client.js:24 | escaped text contains none of `<`, `>`, `"`, `'` |
| Html.UnescapeEscape | public/client.js:24 | decoding the five entities gives back the original text: escaping loses nothing |
| Html.EscapeConcat | public/client.js:24 | escaping works character by character: it distributes over concatenation, so order is kept |
| Html.EscapePlain | public/client.js:24 | text without special characters is returned unchanged |
| Html.EscapeLength | public/client.js:24 | the output length is the input length plus 4 per `&` and `'`, 3 per `<` and `>`, and 5 per `"` |

## Findings

| source | as written | input that shows it | evidently intended | confidence | as-written member | corrected member |
|---|---|---|---|---|---|---|
| server.js:123-156 | `socket.user` is set only after the ban check of `join`, and the `message` and `gift` listeners test that cached flag, which is therefore never set | a user joins, an admin bans them, their re-join is refused, and their next message on the open socket is stored and broadcast (`Server.Hub.BannedUserKeepsChatting`) | a banned user can no longer send: the listeners re-read the ban flag from the users table | medium, not executed | Server.Hub.BannedUserKeepsChatting | Server.Hub.OnMessageChecked |
| server.js:177-182 | the "left" notices are built from `socket.rooms` inside the `disconnect` listener, which Socket.IO calls only after the socket has left every room, so the list is empty | a user who joined room `main` closes the tab: no `main` room receives "left" (`Server.LeftEachNone`) | one "left" notice per joined room other than the socket's own, read while the rooms are still known (a `disconnecting` listener) | medium, not executed (rests on Socket.IO's documented order of leaving rooms and calling `disconnect`) | Server.Hub.OnDisconnectAsWritten | Server.Hub.OnDisconnect |

## Left out

- JWT signing and verification, and bcrypt hashing: foreign libraries. A token is either in the `verify` map (accepted, with its user id) or not. Token expiry is not modelled.
- The `/api/*` routes (register, login, top-up, public reads): HTTP plumbing around the same store calls. `getUserAuth` is used only by login.
- `listTransactions` and `allUsers` (db.js:109-122): read-only reports with joins and an ordering by username.
- `Tables.Credit`, `Server.Hub.OnGift`: balances are unbounded integers in the model. In the code they are JavaScript numbers (doubles) read from and written to a 64-bit SQLite INTEGER column, so `coins + delta` and the balances read back at server.js:161 and :166 are exact only below 2^53. Above that, which the admin route can reach (a grant of 1e16), a debit by `cost` may change the balance by a different amount and the broadcast `userCoins` is rounded; the model's "debits exactly its cost" holds only below that bound.
- `Server.Hub.OnDisconnect`: models the behaviour its body is written for, reading the session's rooms before Socket.IO clears them; the code as written is `Server.Hub.OnDisconnectAsWritten`. The rooms are a `set<string>`, so the order in which `forEach` visits them (Set insertion order) and emits the notices is not kept.
- `Server.Hub.OnGiftChecked`: states the re-read ban gate, the effect of a sent gift and the balance invariant; its other outcomes are those of `Server.Hub.OnGift`, which it calls, and are not restated.
- `Server.Hub.OnMessage`: the `SaveFailed` outcome stands for the uncaught exception of a reused message id. The model ends the handler there; in the code nothing catches it and the Node process exits, ending every session. Only a uuid collision reaches this case.
- `Server.Hub.OnGift`: the `RecordFailed` and `UserMissing` outcomes stand for uncaught exceptions (a reused transaction id after the debit; reading `coins` of a user row that was deleted). The model ends the handler there, keeping the hub, its sessions and its outbox; in the code the Node process exits. Only a uuid collision or a deleted user row reaches them.
- `Store.Db.Stats`: `stats()` is a plain count of the three tables and has no contract of its own. Its `gifts` count is stated through `Store.Db.RecordTransaction`.
- Socket.IO delivery, and the per-socket room that Socket.IO creates: a session starts in the room named by its id and the outbox records what is emitted. Who receives a room broadcast is not modelled.
- The DOM and fetch parts of the client, and `public/admin.js`.
- Concurrency: no handler has a suspension point, so handlers never interleave.
- Payload fields of a non-string type and a `null` message text: the model takes text as a string.
- `Server.Hub.AdminAddCoins`: takes the amount as an optional integer, so it does not model `Number(amount)` of a non-numeric string (NaN), a fractional amount such as 2.5 (the admin page sends `Number(field.value)`, and SQLite then stores a non-integer balance), or the string `"0"`, which is truthy in JavaScript and so passes the `!amount` check and reaches `changeCoins` with 0, where the model answers `BadRequest`.
- Exceptions other than the primary-key collisions above, such as a disk error or a closed database, are not modelled.
- `Tables.SortDesc`: SQLite leaves the order among messages with equal times unspecified. The model fixes one order, and the `Recent*` lemmas state properties in terms of time only.

=== FILE: html.dfy ===
/**
 * The client's `esc`: HTML escaping of user-controlled text before it is
 * put into innerHTML. Each of & < > " ' becomes its entity reference and
 * every other character is kept.
 */
module Html {
  import opened Wrappers

  predicate IsSpecial(c: char) {
    c == '&' || c == '<' || c == '>' || c == '"' || c == '\''
  }

  /** The lookup table of `esc`, extended with the identity on other characters. */
  function Entity(c: char): (r: string)
    ensures IsSpecial(c) ==> |r| >= 4 && r[0] == '&' && r[|r| - 1] == ';'
    ensures !IsSpecial(c) ==> r == [c]
  {
    match c
    case '&' => "&amp;"
    case '<' => "&lt;"
    case '>' => "&gt;"
    case '"' => "&quot;"
    case '\'' => "&#39;"
    case _ => [c]
  }

  /** `s.replace(/[&<>"']/g, ...)`: each character replaced by its entity, in order. */
  function EscapeText(s: string): (r: string)
    ensures |r| >= |s|
  {
    if |s| == 0 then [] else Entity(s[0]) + EscapeText(s[1..])
  }

  /** `esc(s)`: a falsy argument (absent or empty) gives the empty string. */
  function Esc(s: Option<string>): (r: string)
    ensures s.None? ==> r == ""
    ensures s.Some? ==> r == EscapeText(s.value)
    ensures s == Some("") ==> r == ""
    ensures Safe(r)
  {
    if s.None? || s.value == "" then ""
    else
      EscapeIsSafe(s.value);
      EscapeText(s.value)
  }

  /** Only characters that cannot open a tag or end an attribute value: no < > " or '. */
  ghost predicate Safe(r: string) {
    forall i :: 0 <= i < |r| ==> r[i] != '<' && r[i] != '>' && r[i] != '"' && r[i] != '\''
  }

  /** The escaped text contains none of < > " ' (an & only as the start of an entity). */
  lemma {:induction false} EscapeIsSafe(s: string)
    ensures Safe(EscapeText(s))
  {
    if |s| > 0 {
      EscapeIsSafe(s[1..]);
      var e, rest := Entity(s[0]), EscapeText(s[1..]);
      assert Safe(e);
      forall i | 0 <= i < |e + rest| ensures (e + rest)[i] != '<' && (e + rest)[i] != '>' && (e + rest)[i] != '"' && (e + rest)[i] != '\'' {
        if i >= |e| {
          assert (e + rest)[i] == rest[i - |e|];
        }
      }
    }
  }

  /** Reads the five entity references back; the partner of `EscapeText`. */
  function Unescape(s: string): string
    decreases |s|
  {
    if |s| == 0 then []
    else if "&amp;" <= s then "&" + Unescape(s[5..])
    else if "&lt;" <= s then "<" + Unescape(s[4..])
    else if "&gt;" <= s then ">" + Unescape(s[4..])
    else if "&quot;" <= s then "\"" + Unescape(s[6..])
    else if "&#39;" <= s then "'" + Unescape(s[5..])
    else [s[0]] + Unescape(s[1..])
  }

  lemma UnescapeEntity(c: char, t: string)
    ensures Unescape(Entity(c) + t) == [c] + Unescape(t)
  {
    var s := Entity(c) + t;
    if IsSpecial(c) {
      assert s[0] == '&';
      var e := Entity(c);
      assert s[..|e|] == e && s[|e|..] == t;
      // the second character tells the five entity references apart
      if c == '<' || c == '>' || c == '"' || c == '\'' {
        assert s[1] == e[1] != 'a';
        assert !("&amp;" <= s);
      }
      if c == '>' || c == '"' || c == '\'' {
        assert s[1] == e[1] != 'l';
        assert !("&lt;" <= s);
      }
      if c == '"' || c == '\'' {
        assert s[1] == e[1] != 'g';
        assert !("&gt;" <= s);
      }
      if c == '\'' {
        assert s[1] == e[1] != 'q';
        assert !("&quot;" <= s);
      }
    } else {
      assert s[0] == c && s[1..] == t;
    }
  }

  /** Escaping loses nothing: the original text can be read back. */
  lemma {:induction false} UnescapeEscape(s: string)
    ensures Unescape(EscapeText(s)) == s
  {
    if |s| > 0 {
      UnescapeEscape(s[1..]);
      UnescapeEntity(s[0], EscapeText(s[1..]));
      assert s == [s[0]] + s[1..];
    }
  }

  /** Escaping a concatenation escapes each part: the substitution works character by character. */
  lemma {:induction false} EscapeConcat(a: string, b: string)
    ensures EscapeText(a + b) == EscapeText(a) + EscapeText(b)
  {
    if |a| == 0 {
      assert a + b == b;
    } else {
      EscapeConcat(a[1..], b);
      EscapeConcatStep(a, b);
    }
  }

  lemma EscapeConcatStep(a: string, b: string)
    requires |a| > 0
    requires EscapeText(a[1..] + b) == EscapeText(a[1..]) + EscapeText(b)
    ensures EscapeText(a + b) == EscapeText(a) + EscapeText(b)
  {
    EscapeUnfold(a, b);
    var e, x, y := Entity(a[0]), EscapeText(a[1..]), EscapeText(b);
    calc {
      EscapeText(a + b);
      e + EscapeText(a[1..] + b);
      e + (x + y);
      { Regroup(e, x, y); }
      (e + x) + y;
      EscapeText(a) + y;
    }
  }

  lemma Regroup(e: string, x: string, y: string)
    ensures e + (x + y) == (e + x) + y
  {
  }

  lemma EscapeUnfold(a: string, b: string)
    requires |a| > 0
    ensures EscapeText(a + b) == Entity(a[0]) + EscapeText(a[1..] + b)
    ensures EscapeText(a) == Entity(a[0]) + EscapeText(a[1..])
  {
    assert (a + b)[0] == a[0] && (a + b)[1..] == a[1..] + b;
  }

  /** Text without any of the five special characters comes back unchanged. */
  lemma {:induction false} EscapePlain(s: string)
    requires forall i :: 0 <= i < |s| ==> !IsSpecial(s[i])
    ensures EscapeText(s) == s
  {
    if |s| > 0 {
      EscapePlain(s[1..]);
    }
  }

  /** Number of occurrences of `c` in `s`. */
  function Count(s: string, c: char): nat {
    if |s| == 0 then 0 else (if s[0] == c then 1 else 0) + Count(s[1..], c)
  }

  /** Each `&` and `'` adds four characters, each `<` and `>` three and each `"` five. */
  lemma {:induction false} EscapeLength(s: string)
    ensures |EscapeText(s)| == |s| + 4 * Count(s, '&') + 3 * Count(s, '<') + 3 * Count(s, '>')
                                   + 5 * Count(s, '"') + 4 * Count(s, '\'')
  {
    if |s| > 0 {
      EscapeLength(s[1..]);
    }
  }
}

=== FILE: server.dfy ===
/**
 * The realtime handlers and the admin balance/ban routes of server.js.
 * A handler runs to completion against the store (better-sqlite3 calls are
 * synchronous and no handler awaits), so each is one sequential method.
 * What a handler emits is appended to `Hub.outbox`: `ToSocket` for the
 * sender only, `ToRoom` for a room broadcast. Delivery is not modelled.
 */
module Server {
  import opened Wrappers
  import opened Tables
  import opened Store

  datatype Event =
    | System(text: string, room: string)
    | State(user: User, gifts: seq<Gift>, messages: seq<Message>)
    | Error(message: string)
    | Banned
    | Chat(msg: Message)
    | GiftSent(from: string, gift: Gift, userCoins: int, room: string, time: int)

  datatype Emission = ToSocket(socket: string, event: Event) | ToRoom(room: string, event: Event)

  /** Payloads as the client sends them; an absent field is `None`. */
  datatype JoinRequest = JoinRequest(token: Option<string>, id: Option<string>, username: Option<string>, room: Option<string>)
  datatype MessageRequest = MessageRequest(room: Option<string>, text: string)
  datatype GiftRequest = GiftRequest(room: Option<string>, giftId: Option<string>)

  datatype JoinOutcome = InvalidToken | AuthRequired | Refused(user: User) | Joined(user: User, room: string)
  datatype SendOutcome = Ignored | SaveFailed | Broadcast(msg: Message)
  datatype GiftOutcome =
    | GiftIgnored
    | GiftNotFound
    | UserMissing          // the cached user has no row: `userBefore.coins` throws
    | NotEnoughCoins(balance: int, cost: int)
    | RecordFailed         // the INSERT of the transaction threw after the debit
    | Sent(gift: Gift, balance: int)

  datatype AdminReply = Unauthorized | BadRequest(error: string) | Reply(user: Option<User>) | Success

  /** JavaScript truthiness of an optional string field. */
  predicate Truthy(s: Option<string>) {
    s.Some? && s.value != ""
  }

  /** `payload.room || 'main'` */
  function RoomOrMain(room: Option<string>): (r: string)
    ensures r != ""
    ensures Truthy(room) ==> r == room.value
    ensures !Truthy(room) ==> r == "main"
  {
    if Truthy(room) then room.value else "main"
  }

  function JoinedNotice(username: string, room: string): Emission {
    ToRoom(room, System(username + " joined", room))
  }

  function LeftNotice(username: string, room: string): Emission {
    ToRoom(room, System(username + " left", room))
  }

  /** `outbox` is `before` followed by exactly one "left" notice for each room of `rooms`. */
  ghost predicate LeftEach(before: seq<Emission>, outbox: seq<Emission>, name: string, rooms: set<string>) {
    && |outbox| == |before| + |rooms|
    && outbox[..|before|] == before
    && (forall r :: r in rooms ==> LeftNotice(name, r) in outbox[|before|..])
    && (forall e :: e in outbox[|before|..] ==> e.ToRoom? && e.room in rooms && e == LeftNotice(name, e.room))
  }

  lemma LeftEachStep(before: seq<Emission>, out: seq<Emission>, name: string, done: set<string>, r: string)
    requires LeftEach(before, out, name, done) && r !in done
    ensures LeftEach(before, out + [LeftNotice(name, r)], name, done + {r})
  {
    var out' := out + [LeftNotice(name, r)];
    assert out'[..|before|] == before;
    assert out'[|before|..] == out[|before|..] + [LeftNotice(name, r)];
  }

  /** With no room to leave, the outbox gains nothing. */
  lemma LeftEachNone(before: seq<Emission>, outbox: seq<Emission>, name: string)
    requires LeftEach(before, outbox, name, {})
    ensures outbox == before
  {
    assert outbox == outbox[..|before|];
  }

  /** With at least one room to leave, at least one notice goes out. */
  lemma LeftEachSome(before: seq<Emission>, outbox: seq<Emission>, name: string, rooms: set<string>, r: string)
    requires LeftEach(before, outbox, name, rooms) && r in rooms
    ensures |outbox| > |before| && LeftNotice(name, r) in outbox
  {
    assert LeftNotice(name, r) in outbox[|before|..];
  }

  /** One connection: its id, the user bound at join (a snapshot) and its rooms. */
  class Session {
    const id: string
    var user: Option<User>
    var rooms: set<string>

    /** A new socket is alone in the room named by its own id. */
    constructor (id: string)
      ensures this.id == id && user == None && rooms == {id}
    {
      this.id := id;
      user := None;
      rooms := {id};
    }
  }

  class Hub {
    const db: Db
    var outbox: seq<Emission>

    constructor (db: Db)
      ensures this.db == db && outbox == []
    {
      this.db := db;
      outbox := [];
    }

    /** The user a join request's token resolves to: `getUserById(jwt.verify(token).id)`. */
    ghost function TokenUser(p: JoinRequest, verify: map<string, string>): Option<User>
      reads db
      requires db.Valid()
    {
      if Truthy(p.token) && p.token.value in verify then db.GetUserById(verify[p.token.value]) else None
    }

    /** The session's user, if any, has a row in the users table. */
    ghost predicate BoundToStoredUser(s: Session)
      reads s, db
    {
      s.user.Some? ==> s.user.value.id in db.users
    }

    /** The session's cached user, if any, is not flagged banned. */
    ghost predicate CachesUnbanned(s: Session)
      reads s
    {
      s.user.Some? ==> !s.user.value.banned
    }

    /** The `join` handler. `verify` maps each token jwt.verify accepts to its user id. */
    method OnJoin(s: Session, p: JoinRequest, verify: map<string, string>) returns (outcome: JoinOutcome)
      requires db.Valid()
      modifies this, db, s
      ensures db.Valid()
      ensures db.messages == old(db.messages) && db.gifts == old(db.gifts) && db.transactions == old(db.transactions)
      ensures old(db.users).Keys <= db.users.Keys
      // a token that does not verify: the exception is caught and nothing else is tried
      ensures outcome.InvalidToken? <==> Truthy(p.token) && p.token.value !in verify
      ensures outcome.InvalidToken? ==>
                db.users == old(db.users) && unchanged(s)
                && outbox == old(outbox) + [ToSocket(s.id, Error("Invalid token"))]
      // no user from the token and no complete id+username fallback
      ensures outcome.AuthRequired? <==>
                !outcome.InvalidToken? && old(TokenUser(p, verify)).None? && !(Truthy(p.id) && Truthy(p.username))
      ensures outcome.AuthRequired? ==>
                db.users == old(db.users) && unchanged(s)
                && outbox == old(outbox) + [ToSocket(s.id, Error("Auth required"))]
      // which user the request resolves to
      ensures (outcome.Refused? || outcome.Joined?) && old(TokenUser(p, verify)).Some? ==>
                outcome.user == old(TokenUser(p, verify)).value && db.users == old(db.users)
      ensures (outcome.Refused? || outcome.Joined?) && old(TokenUser(p, verify)).None? ==>
                Truthy(p.id) && Truthy(p.username) && outcome.user.id in db.users
                && (p.id.value in old(db.users) ==>
                      outcome.user == Public(old(db.users)[p.id.value]) && db.users == old(db.users))
                && (p.id.value !in old(db.users) && !old(db.UsernameTaken(p.username.value)) ==>
                      outcome.user == User(p.id.value, p.username.value, DefaultRole, DefaultCoins, false)
                      && db.users == old(db.users)[p.id.value := UserRow(p.id.value, p.username.value, None, DefaultRole, DefaultCoins, false)])
                && (p.id.value !in old(db.users) && old(db.UsernameTaken(p.username.value)) ==>
                      outcome.user.username == p.username.value && outcome.user.id in old(db.users)
                      && outcome.user == Public(old(db.users)[outcome.user.id]) && db.users == old(db.users))
      // the ban gate
      ensures outcome.Refused? ==>
                outcome.user.banned && unchanged(s)
                && outbox == old(outbox) + [ToSocket(s.id, Banned)]
      // a successful join
      ensures outcome.Joined? ==>
                && !outcome.user.banned
                && outcome.room == RoomOrMain(p.room)
                && s.user == Some(outcome.user)
                && outcome.user.id in db.users
                && s.rooms == old(s.rooms) + {outcome.room}
                && outbox == old(outbox) + [
                     JoinedNotice(outcome.user.username, outcome.room),
                     ToSocket(s.id, State(outcome.user, db.gifts, db.RecentMessages(outcome.room, 100)))]
      ensures old(BoundToStoredUser(s)) ==> BoundToStoredUser(s)
      ensures old(CachesUnbanned(s)) ==> CachesUnbanned(s)
    {
      var user: Option<User> := None;
      if Truthy(p.token) {
        if p.token.value !in verify {
          outbox := outbox + [ToSocket(s.id, Error("Invalid token"))];
          return InvalidToken;
        }
        user := db.GetUserById(verify[p.token.value]);
      }
      if user.None? && Truthy(p.id) && Truthy(p.username) {
        var byId := db.GetUserById(p.id.value);
        if byId.Some? {
          user := byId;
        } else {
          var created := db.CreateUser(p.id.value, p.username.value, None, DefaultRole);
          user := Some(created);
        }
      }
      if user.None? {
        outbox := outbox + [ToSocket(s.id, Error("Auth required"))];
        return AuthRequired;
      }
      var u := user.value;
      if u.banned {
        outbox := outbox + [ToSocket(s.id, Banned)];
        return Refused(u);
      }
      s.user := Some(u);
      var room := RoomOrMain(p.room);
      s.rooms := s.rooms + {room};
      var state := State(u, db.ListGifts(), db.RecentMessages(room, 100));
      outbox := outbox + [JoinedNotice(u.username, room), ToSocket(s.id, state)];
      return Joined(u, room);
    }

    /** The `message` handler: persist, then broadcast the same record to that room. */
    method OnMessage(s: Session, p: MessageRequest, id: string, time: int) returns (outcome: SendOutcome)
      requires db.Valid()
      modifies this, db
      ensures db.Valid()
      ensures db.users == old(db.users) && db.gifts == old(db.gifts) && db.transactions == old(db.transactions)
      ensures s.user.None? || s.user.value.banned ==>
                outcome == Ignored && db.messages == old(db.messages) && outbox == old(outbox)
      ensures s.user.Some? && !s.user.value.banned && old(db.MessageIdUsed(id)) ==>
                outcome == SaveFailed && db.messages == old(db.messages) && outbox == old(outbox)
      ensures s.user.Some? && !s.user.value.banned && !old(db.MessageIdUsed(id)) ==>
                var m := Message(id, RoomOrMain(p.room), s.user.value.id, s.user.value.username, p.text, time);
                outcome == Broadcast(m)
                && db.messages == old(db.messages) + [m]
                && outbox == old(outbox) + [ToRoom(m.room, Chat(m))]
    {
      if s.user.None? {
        return Ignored;
      }
      if s.user.value.banned {
        return Ignored;
      }
      var room := RoomOrMain(p.room);
      var u := s.user.value;
      var ok := db.SaveMessage(id, room, u.id, u.username, p.text, time);
      if !ok {
        return SaveFailed;
      }
      var msg := Message(id, room, u.id, u.username, p.text, time);
      outbox := outbox + [ToRoom(room, Chat(msg))];
      return Broadcast(msg);
    }

    /**
     * The `gift` handler: catalog lookup, a fresh read of the balance,
     * debit by the cost, one transaction, broadcast of the new balance.
     */
    method OnGift(s: Session, p: GiftRequest, txId: string, txTime: int, eventTime: int) returns (outcome: GiftOutcome)
      requires db.Valid()
      modifies this, db
      ensures db.Valid()
      ensures db.messages == old(db.messages) && db.gifts == old(db.gifts)
      ensures outcome.GiftIgnored? <==> s.user.None? || s.user.value.banned
      // every failure before the debit changes nothing but the sender's error
      ensures outcome.GiftIgnored? || outcome.UserMissing? ==>
                db.users == old(db.users) && db.transactions == old(db.transactions) && outbox == old(outbox)
      ensures outcome.GiftNotFound? <==>
                !outcome.GiftIgnored? && FindGift(old(db.gifts), p.giftId).None?
      ensures outcome.GiftNotFound? ==>
                db.users == old(db.users) && db.transactions == old(db.transactions)
                && outbox == old(outbox) + [ToSocket(s.id, Error("Gift not found"))]
      ensures outcome.UserMissing? <==>
                !outcome.GiftIgnored? && !outcome.GiftNotFound? && s.user.value.id !in old(db.users)
      ensures old(BoundToStoredUser(s)) ==> !outcome.UserMissing?
      ensures outcome.NotEnoughCoins? <==>
                && !outcome.GiftIgnored? && !outcome.GiftNotFound? && !outcome.UserMissing?
                && old(db.users)[s.user.value.id].coins < FindGift(old(db.gifts), p.giftId).value.cost
      ensures outcome.NotEnoughCoins? ==>
                db.users == old(db.users) && db.transactions == old(db.transactions)
                && outcome.balance == old(db.users)[s.user.value.id].coins
                && outbox == old(outbox) + [ToSocket(s.id, Error("Not enough coins"))]
      // past the balance check: the debit is applied exactly once
      ensures outcome.RecordFailed? || outcome.Sent? ==>
                var uid := s.user.value.id;
                var gift := FindGift(old(db.gifts), p.giftId).value;
                && uid in old(db.users)
                && old(db.users)[uid].coins >= gift.cost
                && db.users == Credit(old(db.users), uid, -gift.cost)
                && db.users[uid].coins == old(db.users)[uid].coins - gift.cost
                && db.users[uid].coins >= 0
      ensures outcome.RecordFailed? ==>
                old(db.TransactionIdUsed(txId)) && db.transactions == old(db.transactions) && outbox == old(outbox)
      ensures outcome.Sent? ==>
                var u := s.user.value;
                var gift := FindGift(old(db.gifts), p.giftId).value;
                var room := RoomOrMain(p.room);
                && outcome.gift == gift
                && outcome.balance == db.users[u.id].coins
                && db.transactions == old(db.transactions) + [Transaction(txId, u.id, gift.id, room, txTime)]
                && outbox == old(outbox) + [ToRoom(room, GiftSent(u.username, gift, outcome.balance, room, eventTime))]
      ensures NonNegativeBalances(old(db.users)) ==> NonNegativeBalances(db.users)
    {
      if s.user.None? {
        return GiftIgnored;
      }
      if s.user.value.banned {
        return GiftIgnored;
      }
      var u := s.user.value;
      var room := RoomOrMain(p.room);
      var gifts := db.ListGifts();
      var found := FindGift(gifts, p.giftId);
      if found.None? {
        outbox := outbox + [ToSocket(s.id, Error("Gift not found"))];
        return GiftNotFound;
      }
      var gift := found.value;
      var before := db.GetUserById(u.id);
      if before.None? {
        return UserMissing;
      }
      if before.value.coins < gift.cost {
        outbox := outbox + [ToSocket(s.id, Error("Not enough coins"))];
        return NotEnoughCoins(before.value.coins, gift.cost);
      }
      outcome := Spend(u, gift, room, txId, txTime, eventTime);
    }

    /**
     * The part of the `gift` handler past the balance check: debit by the
     * cost, record the transaction, re-read the balance and broadcast it.
     */
    method Spend(u: User, gift: Gift, room: string, txId: string, txTime: int, eventTime: int)
      returns (outcome: GiftOutcome)
      requires db.Valid()
      requires u.id in db.users && db.users[u.id].coins >= gift.cost
      modifies this, db
      ensures db.Valid()
      ensures db.messages == old(db.messages) && db.gifts == old(db.gifts)
      ensures outcome.RecordFailed? || outcome.Sent?
      ensures db.users == Credit(old(db.users), u.id, -gift.cost)
      ensures db.users[u.id].coins == old(db.users)[u.id].coins - gift.cost >= 0
      ensures outcome.RecordFailed? <==> old(db.TransactionIdUsed(txId))
      ensures outcome.RecordFailed? ==> db.transactions == old(db.transactions) && outbox == old(outbox)
      ensures outcome.Sent? ==>
                && outcome == Sent(gift, db.users[u.id].coins)
                && db.transactions == old(db.transactions) + [Transaction(txId, u.id, gift.id, room, txTime)]
                && outbox == old(outbox) + [ToRoom(room, GiftSent(u.username, gift, outcome.balance, room, eventTime))]
      ensures NonNegativeBalances(old(db.users)) ==> NonNegativeBalances(db.users)
    {
      DebitKeepsNonNegative(db.users, u.id, gift.cost);
      ghost var debited := Credit(db.users, u.id, -gift.cost);
      var _ := db.ChangeCoins(u.id, -gift.cost);
      assert db.users == debited;
      var ok := db.RecordTransaction(txId, u.id, gift.id, room, txTime);
      assert db.users == debited;
      if !ok {
        return RecordFailed;
      }
      var after := db.GetUserById(u.id);
      outbox := outbox + [ToRoom(room, GiftSent(u.username, gift, after.value.coins, room, eventTime))];
      return Sent(gift, after.value.coins);
    }

    /**
     * The ban as written: an admin bans the user of a joined session, the
     * user's re-join with their token is refused, and yet the session, which
     * still holds the snapshot taken before the ban, gets its next message
     * stored and broadcast.
     */
    method BannedUserKeepsChatting(s: Session, pass: Option<string>, adminPassword: string, token: string,
                                   verify: map<string, string>, m: MessageRequest, id: string, time: int)
      returns (join: JoinOutcome, sent: SendOutcome)
      requires db.Valid()
      requires s.user.Some? && !s.user.value.banned && s.user.value.id in db.users && s.user.value.id != ""
      requires pass == Some(adminPassword)
      requires token != "" && token in verify && verify[token] == s.user.value.id
      requires !db.MessageIdUsed(id)
      modifies this, db, s
      ensures db.Valid()
      ensures join.Refused? && sent.Broadcast?
      ensures s.user == old(s.user)
      ensures var uid := old(s.user.value.id); uid in db.users && db.users[uid].banned
    {
      var uid := s.user.value.id;
      var reply := AdminBan(pass, adminPassword, Some(uid));
      assert db.users[uid].banned;
      join := OnJoin(s, JoinRequest(Some(token), None, None, None), verify);
      sent := OnMessage(s, m, id, time);
    }

    /** True when the session's user is flagged banned in the users table now. */
    predicate BannedNow(s: Session)
      reads s, db
    {
      s.user.Some? && s.user.value.id in db.users && db.users[s.user.value.id].banned
    }

    /** The `message` handler with the ban re-read from the users table, so that its ban check (server.js:145) can fire. */
    method OnMessageChecked(s: Session, p: MessageRequest, id: string, time: int) returns (outcome: SendOutcome)
      requires db.Valid()
      modifies this, db
      ensures db.Valid()
      ensures db.users == old(db.users) && db.gifts == old(db.gifts) && db.transactions == old(db.transactions)
      ensures old(BannedNow(s)) ==> outcome == Ignored && db.messages == old(db.messages) && outbox == old(outbox)
      ensures outcome.Broadcast? ==> !old(BannedNow(s)) && s.user.Some? && !s.user.value.banned
      ensures !old(BannedNow(s)) && s.user.Some? && !s.user.value.banned && !old(db.MessageIdUsed(id)) ==>
                var m := Message(id, RoomOrMain(p.room), s.user.value.id, s.user.value.username, p.text, time);
                outcome == Broadcast(m)
                && db.messages == old(db.messages) + [m]
                && outbox == old(outbox) + [ToRoom(m.room, Chat(m))]
    {
      if BannedNow(s) {
        return Ignored;
      }
      outcome := OnMessage(s, p, id, time);
    }

    /** The `gift` handler with the ban re-read from the users table, so that its ban check (server.js:156) can fire. */
    method OnGiftChecked(s: Session, p: GiftRequest, txId: string, txTime: int, eventTime: int) returns (outcome: GiftOutcome)
      requires db.Valid()
      modifies this, db
      ensures db.Valid()
      ensures db.messages == old(db.messages) && db.gifts == old(db.gifts)
      ensures old(BannedNow(s)) ==>
                outcome == GiftIgnored && db.users == old(db.users) && db.transactions == old(db.transactions)
                && outbox == old(outbox)
      ensures outcome.Sent? ==> s.user.Some? && FindGift(old(db.gifts), p.giftId).Some?
      ensures outcome.Sent? ==>
                var u := s.user.value;
                var gift := FindGift(old(db.gifts), p.giftId).value;
                var room := RoomOrMain(p.room);
                && !old(BannedNow(s))
                && u.id in old(db.users) && old(db.users)[u.id].coins >= gift.cost
                && db.users == Credit(old(db.users), u.id, -gift.cost)
                && db.transactions == old(db.transactions) + [Transaction(txId, u.id, gift.id, room, txTime)]
                && outbox == old(outbox) + [ToRoom(room, GiftSent(u.username, gift, db.users[u.id].coins, room, eventTime))]
      ensures NonNegativeBalances(old(db.users)) ==> NonNegativeBalances(db.users)
    {
      if BannedNow(s) {
        return GiftIgnored;
      }
      outcome := OnGift(s, p, txId, txTime, eventTime);
    }

    /**
     * The `disconnect` handler as its body reads: for a bound session, one "left"
     * notice to each room it is in, except the room named by its own socket
     * id. This reads the rooms before Socket.IO clears them, as a
     * `disconnecting` listener would.
     */
    method OnDisconnect(s: Session)
      modifies this
      ensures s.user.None? ==> outbox == old(outbox)
      ensures s.user.Some? ==> LeftEach(old(outbox), outbox, s.user.value.username, s.rooms - {s.id})
    {
      if s.user.None? {
        return;
      }
      var name := s.user.value.username;
      var before := outbox;
      var out := outbox;
      var pending := s.rooms - {s.id};
      ghost var done: set<string> := {};
      while pending != {}
        invariant pending + done == s.rooms - {s.id} && pending !! done
        invariant LeftEach(before, out, name, done)
        decreases pending
      {
        var r :| r in pending;
        LeftEachStep(before, out, name, done, r);
        out := out + [LeftNotice(name, r)];
        pending := pending - {r};
        done := done + {r};
      }
      outbox := out;
    }

    /**
     * The `disconnect` handler as Socket.IO runs it: the socket has left all
     * of its rooms before the listener is called, so the room list it reads
     * is empty and no "left" notice is sent, whatever rooms were joined.
     */
    method OnDisconnectAsWritten(s: Session)
      modifies this, s
      ensures s.rooms == {} && s.user == old(s.user)
      ensures outbox == old(outbox)
    {
      s.rooms := {};
      OnDisconnect(s);
      if s.user.Some? {
        LeftEachNone(old(outbox), outbox, s.user.value.username);
      }
    }

    /** `POST /admin/add-coins` behind the shared admin password. */
    method AdminAddCoins(pass: Option<string>, adminPassword: string, userId: Option<string>, amount: Option<int>)
      returns (reply: AdminReply)
      requires db.Valid()
      modifies db
      ensures db.Valid()
      ensures db.messages == old(db.messages) && db.gifts == old(db.gifts) && db.transactions == old(db.transactions)
      ensures pass != Some(adminPassword) ==> reply == Unauthorized && db.users == old(db.users)
      ensures pass == Some(adminPassword) && (!Truthy(userId) || amount.None? || amount.value == 0) ==>
                reply == BadRequest("userId and amount required") && db.users == old(db.users)
      ensures pass == Some(adminPassword) && Truthy(userId) && amount.Some? && amount.value != 0 ==>
                && db.users == Credit(old(db.users), userId.value, amount.value)
                && reply == Reply(db.GetUserById(userId.value))
    {
      if pass != Some(adminPassword) {
        return Unauthorized;
      }
      if !Truthy(userId) || amount.None? || amount.value == 0 {
        return BadRequest("userId and amount required");
      }
      var _ := db.ChangeCoins(userId.value, amount.value);
      reply := Reply(db.GetUserById(userId.value));
    }

    /** `POST /admin/ban`. */
    method AdminBan(pass: Option<string>, adminPassword: string, userId: Option<string>) returns (reply: AdminReply)
      requires db.Valid()
      modifies db
      ensures db.Valid()
      ensures db.messages == old(db.messages) && db.gifts == old(db.gifts) && db.transactions == old(db.transactions)
      ensures pass != Some(adminPassword) ==> reply == Unauthorized && db.users == old(db.users)
      ensures pass == Some(adminPassword) && !Truthy(userId) ==>
                reply == BadRequest("userId required") && db.users == old(db.users)
      ensures pass == Some(adminPassword) && Truthy(userId) ==>
                db.users == WithBanned(old(db.users), userId.value, true) && reply == Reply(db.GetUserById(userId.value))
    {
      if pass != Some(adminPassword) {
        return Unauthorized;
      }
      if !Truthy(userId) {
        return BadRequest("userId required");
      }
      var u := db.BanUser(userId.value);
      reply := Reply(u);
    }

    /** `POST /admin/unban`. */
    method AdminUnban(pass: Option<string>, adminPassword: string, userId: Option<string>) returns (reply: AdminReply)
      requires db.Valid()
      modifies db
      ensures db.Valid()
      ensures db.messages == old(db.messages) && db.gifts == old(db.gifts) && db.transactions == old(db.transactions)
      ensures pass != Some(adminPassword) ==> reply == Unauthorized && db.users == old(db.users)
      ensures pass == Some(adminPassword) && !Truthy(userId) ==>
                reply == BadRequest("userId required") && db.users == old(db.users)
      ensures pass == Some(adminPassword) && Truthy(userId) ==>
                db.users == WithBanned(old(db.users), userId.value, false) && reply == Reply(db.GetUserById(userId.value))
    {
      if pass != Some(adminPassword) {
        return Unauthorized;
      }
      if !Truthy(userId) {
        return BadRequest("userId required");
      }
      var u := db.UnbanUser(userId.value);
      reply := Reply(u);
    }

    /** `POST /admin/delete-message`. */
    method AdminDeleteMessage(pass: Option<string>, adminPassword: string, messageId: Option<string>)
      returns (reply: AdminReply)
      requires db.Valid()
      modifies db
      ensures db.Valid()
      ensures db.users == old(db.users) && db.gifts == old(db.gifts) && db.transactions == old(db.transactions)
      ensures pass != Some(adminPassword) ==> reply == Unauthorized && db.messages == old(db.messages)
      ensures pass == Some(adminPassword) && !Truthy(messageId) ==>
                reply == BadRequest("messageId required") && db.messages == old(db.messages)
      ensures pass == Some(adminPassword) && Truthy(messageId) ==>
                db.messages == WithoutMessage(old(db.messages), messageId.value) && reply == Success
    {
      if pass != Some(adminPassword) {
        return Unauthorized;
      }
      if !Truthy(messageId) {
        return BadRequest("messageId required");
      }
      db.DeleteMessage(messageId.value);
      reply := Success;
    }
  }
}

=== FILE: store.dfy ===
/**
 * The chat store: an in-memory stand-in for the SQLite database of db.js.
 * Each mutator is one SQL statement (INSERT, INSERT OR IGNORE, UPDATE,
 * DELETE) on one table; each query is a function of the tables.
 */
module Store {
  import opened Wrappers
  import opened Tables

  class Db {
    /** users, keyed by the `id` primary key */
    var users: map<string, UserRow>
    /** messages in insertion order */
    var messages: seq<Message>
    var gifts: seq<Gift>
    /** transactions in insertion order */
    var transactions: seq<Transaction>

    /** The table constraints: primary keys and the UNIQUE username. */
    ghost predicate Valid()
      reads this
    {
      && (forall id :: id in users ==> users[id].id == id)
      && (forall a, b :: a in users && b in users && users[a].username == users[b].username ==> a == b)
      && DistinctIds(messages)
      && DistinctGiftIds(gifts)
      && (forall i, j :: 0 <= i < j < |transactions| ==> transactions[i].id != transactions[j].id)
    }

    /** `CREATE TABLE IF NOT EXISTS` on a new database file: four empty tables. */
    constructor ()
      ensures Valid()
      ensures users == map[] && messages == [] && gifts == [] && transactions == []
    {
      users, messages, gifts, transactions := map[], [], [], [];
    }

    /** `init`: seeds the gift catalog when the gifts table is empty. */
    method Init()
      requires Valid()
      modifies this
      ensures Valid()
      ensures gifts == SeedGifts(old(gifts))
      ensures users == old(users) && messages == old(messages) && transactions == old(transactions)
    {
      SeedGiftsKeepsDistinct(gifts);
      if |gifts| == 0 {
        gifts := gifts + [Gift("g1", "Rose", 5)];
        gifts := gifts + [Gift("g2", "Heart", 20)];
        gifts := gifts + [Gift("g3", "Diamond", 100)];
        assert gifts == Catalog;
      }
    }

    predicate UsernameTaken(username: string)
      reads this
    {
      exists id :: id in users && users[id].username == username
    }

    /** `getUserById`: the row with that primary key, without its password hash. */
    function GetUserById(id: string): (u: Option<User>)
      reads this
      requires Valid()
      ensures u.Some? <==> id in users
      ensures u.Some? ==> u.value == Public(users[id]) && u.value.id == id
    {
      if id in users then Some(Public(users[id])) else None
    }

    /** `getUserByName`: the row holding that username; there is at most one. */
    function GetUserByName(username: string): (u: Option<User>)
      reads this
      requires Valid()
      ensures u.Some? <==> UsernameTaken(username)
      ensures u.Some? ==> u.value.username == username && u.value.id in users
                          && Public(users[u.value.id]) == u.value
    {
      if UsernameTaken(username) then
        var id :| id in users && users[id].username == username;
        Some(Public(users[id]))
      else None
    }

    /**
     * `createUser`: INSERT OR IGNORE with coins 100 and banned 0, then the
     * user with that id, or failing that the user with that username.
     */
    method CreateUser(id: string, username: string, passwordHash: Option<string>, role: string) returns (u: User)
      requires Valid()
      modifies this
      ensures Valid()
      ensures messages == old(messages) && gifts == old(gifts) && transactions == old(transactions)
      ensures var inserted := id !in old(users) && !old(UsernameTaken(username));
              users == if inserted then old(users)[id := UserRow(id, username, passwordHash, role, DefaultCoins, false)]
                       else old(users)
      ensures id !in old(users) && !old(UsernameTaken(username)) ==>
                u == User(id, username, role, DefaultCoins, false)
      ensures id in old(users) ==> u == Public(old(users)[id])
      ensures id !in old(users) && old(UsernameTaken(username)) ==>
                u.username == username && u.id in old(users) && u == Public(old(users)[u.id])
    {
      if id !in users && !UsernameTaken(username) {
        users := users[id := UserRow(id, username, passwordHash, role, DefaultCoins, false)];
      }
      var byId := GetUserById(id);
      if byId.Some? {
        u := byId.value;
      } else {
        var byName := GetUserByName(username);
        u := byName.value;
      }
    }

    /** `changeCoins`: adds `delta` to that user's balance; an unknown id changes nothing. */
    method ChangeCoins(id: string, delta: int) returns (u: Option<User>)
      requires Valid()
      modifies this
      ensures Valid()
      ensures users == Credit(old(users), id, delta)
      ensures messages == old(messages) && gifts == old(gifts) && transactions == old(transactions)
      ensures u.Some? <==> id in old(users)
      ensures u.Some? ==> u.value == Public(old(users)[id]).(coins := old(users)[id].coins + delta)
    {
      if id in users {
        users := users[id := users[id].(coins := users[id].coins + delta)];
      }
      u := GetUserById(id);
    }

    /** `banUser`: sets the ban flag of that user. */
    method BanUser(id: string) returns (u: Option<User>)
      requires Valid()
      modifies this
      ensures Valid()
      ensures users == WithBanned(old(users), id, true)
      ensures messages == old(messages) && gifts == old(gifts) && transactions == old(transactions)
      ensures u.Some? <==> id in old(users)
      ensures u.Some? ==> u.value == Public(old(users)[id]).(banned := true)
    {
      if id in users {
        users := users[id := users[id].(banned := true)];
      }
      u := GetUserById(id);
    }

    /** `unbanUser`: clears the ban flag of that user. */
    method UnbanUser(id: string) returns (u: Option<User>)
      requires Valid()
      modifies this
      ensures Valid()
      ensures users == WithBanned(old(users), id, false)
      ensures messages == old(messages) && gifts == old(gifts) && transactions == old(transactions)
      ensures u.Some? <==> id in old(users)
      ensures u.Some? ==> u.value == Public(old(users)[id]).(banned := false)
    {
      if id in users {
        users := users[id := users[id].(banned := false)];
      }
      u := GetUserById(id);
    }

    predicate MessageIdUsed(id: string)
      reads this
    {
      exists i :: 0 <= i < |messages| && messages[i].id == id
    }

    /**
     * `saveMessage`: appends one message. A second row with the same
     * primary key makes the INSERT throw; `ok` is false then and nothing is stored.
     */
    method SaveMessage(id: string, room: string, userId: string, username: string, text: string, time: int)
      returns (ok: bool)
      requires Valid()
      modifies this
      ensures Valid()
      ensures ok <==> !old(MessageIdUsed(id))
      ensures messages == if ok then old(messages) + [Message(id, room, userId, username, text, time)]
                          else old(messages)
      ensures users == old(users) && gifts == old(gifts) && transactions == old(transactions)
    {
      ok := !MessageIdUsed(id);
      if ok {
        messages := messages + [Message(id, room, userId, username, text, time)];
      }
    }

    /** `recentMessages(room, limit)`. */
    function RecentMessages(room: string, limit: int): (r: seq<Message>)
      reads this
      ensures forall m :: m in r ==> m in messages && m.room == room
      ensures SortedAsc(r)
    {
      RecentFromRoom(messages, room, limit);
      RecentOldestFirst(messages, room, limit);
      Recent(messages, room, limit)
    }

    /** `deleteMessage`: removes the messages with that id, keeping the order of the rest. */
    method DeleteMessage(id: string)
      requires Valid()
      modifies this
      ensures Valid()
      ensures messages == WithoutMessage(old(messages), id)
      ensures users == old(users) && gifts == old(gifts) && transactions == old(transactions)
    {
      WithoutMessageUniqueIds(messages, id);
      messages := WithoutMessage(messages, id);
    }

    /** `listGifts`: the whole catalog in table order; no two gifts share an id. */
    function ListGifts(): (r: seq<Gift>)
      reads this
      requires Valid()
      ensures r == gifts
      ensures forall i, j :: 0 <= i < j < |r| ==> r[i].id != r[j].id
    {
      gifts
    }

    predicate TransactionIdUsed(id: string)
      reads this
    {
      exists i :: 0 <= i < |transactions| && transactions[i].id == id
    }

    /** `recordTransaction`: appends one transaction; a reused primary key makes it throw. */
    method RecordTransaction(id: string, userId: string, giftId: string, room: string, time: int)
      returns (ok: bool)
      requires Valid()
      modifies this
      ensures Valid()
      ensures ok <==> !old(TransactionIdUsed(id))
      ensures transactions == if ok then old(transactions) + [Transaction(id, userId, giftId, room, time)]
                              else old(transactions)
      ensures Stats().gifts == if ok then old(Stats().gifts) + 1 else old(Stats().gifts)
      ensures users == old(users) && messages == old(messages) && gifts == old(gifts)
    {
      ok := !TransactionIdUsed(id);
      if ok {
        transactions := transactions + [Transaction(id, userId, giftId, room, time)];
      }
    }

    /** `stats`: users, messages, and gifts sent (transactions). */
    function Stats(): Tables.Stats
      reads this
    {
      Tables.Stats(|users.Keys|, |messages|, |transactions|)
    }
  }

  /** The `id` primary key of the messages table. */
  ghost predicate DistinctIds(ms: seq<Message>) {
    forall i, j :: 0 <= i < j < |ms| ==> ms[i].id != ms[j].id
  }

  /** `DELETE FROM messages WHERE id = ?` on a list of messages. */
  function WithoutMessage(ms: seq<Message>, id: string): (r: seq<Message>)
    ensures forall m :: m in r <==> m in ms && m.id != id
    ensures |r| <= |ms|
    ensures |r| == |ms| ==> r == ms
  {
    if |ms| == 0 then []
    else if ms[|ms| - 1].id == id then WithoutMessage(ms[..|ms| - 1], id)
    else
      assert ms == ms[..|ms| - 1] + [ms[|ms| - 1]];
      WithoutMessage(ms[..|ms| - 1], id) + [ms[|ms| - 1]]
  }

  /** Deleting keeps the messages' ids pairwise distinct. */
  lemma {:induction false} WithoutMessageUniqueIds(ms: seq<Message>, id: string)
    requires DistinctIds(ms)
    ensures DistinctIds(WithoutMessage(ms, id))
  {
    if |ms| > 0 {
      var front := ms[..|ms| - 1];
      assert forall i :: 0 <= i < |front| ==> front[i] == ms[i];
      WithoutMessageUniqueIds(front, id);
      var last := ms[|ms| - 1];
      var rest := WithoutMessage(front, id);
      forall m | m in rest ensures m.id != last.id {
        var k :| 0 <= k < |front| && front[k] == m;
        assert ms[k] == m;
      }
      if last.id != id {
        var r := rest + [last];
        forall i, j | 0 <= i < j < |r| ensures r[i].id != r[j].id {
          assert r[i] == rest[i];
          if j == |r| - 1 {
            assert r[i] in rest && r[j] == last;
            assert r[i].id != last.id;
          } else {
            assert r[i] == rest[i] && r[j] == rest[j];
            assert rest[i].id != rest[j].id;
          }
        }
        assert WithoutMessage(ms, id) == r;
      }
    }
  }
}

=== FILE: tables.dfy ===
/**
 * Rows of the four tables of the chat store (users, messages, gifts,
 * transactions) and the pure queries over them: the "last N messages of a
 * room" pipeline, the gift-catalog lookup and the two column updates on the
 * users table.
 */
module Tables {
  import opened Wrappers

  /** A full row of the users table (password hash included). */
  datatype UserRow = UserRow(
    id: string,
    username: string,
    passwordHash: Option<string>,
    role: string,
    coins: int,
    banned: bool)

  /** A user as the lookup queries return it: every column but the password hash. */
  datatype User = User(id: string, username: string, role: string, coins: int, banned: bool)

  datatype Message = Message(id: string, room: string, userId: string, username: string, text: string, time: int)

  datatype Gift = Gift(id: string, name: string, cost: int)

  datatype Transaction = Transaction(id: string, userId: string, giftId: string, room: string, time: int)

  /** Table sizes; `gifts` counts transactions, i.e. gifts sent. */
  datatype Stats = Stats(users: nat, messages: nat, gifts: nat)

  const DefaultCoins: int := 100
  const DefaultRole: string := "viewer"

  /** The catalog seeded into an empty gifts table. */
  const Catalog: seq<Gift> := [Gift("g1", "Rose", 5), Gift("g2", "Heart", 20), Gift("g3", "Diamond", 100)]

  function Public(row: UserRow): User {
    User(row.id, row.username, row.role, row.coins, row.banned)
  }

  /** The gifts table after seeding: filled with the catalog only when it was empty. */
  function SeedGifts(gifts: seq<Gift>): (r: seq<Gift>)
    ensures |gifts| == 0 ==> r == Catalog
    ensures |gifts| != 0 ==> r == gifts
    ensures |r| > 0
  {
    if |gifts| == 0 then Catalog else gifts
  }

  /** The `id TEXT PRIMARY KEY` of the gifts table. */
  ghost predicate DistinctGiftIds(gifts: seq<Gift>) {
    forall i, j :: 0 <= i < j < |gifts| ==> gifts[i].id != gifts[j].id
  }

  /** Seeding keeps the gift ids a key: the three catalog ids differ. */
  lemma SeedGiftsKeepsDistinct(gifts: seq<Gift>)
    requires DistinctGiftIds(gifts)
    ensures DistinctGiftIds(SeedGifts(gifts))
  {
    if |gifts| == 0 {
      assert "g1"[1] != "g2"[1] && "g1"[1] != "g3"[1] && "g2"[1] != "g3"[1];
    }
  }

  lemma SeedGiftsIdempotent(gifts: seq<Gift>)
    ensures SeedGifts(SeedGifts(gifts)) == SeedGifts(gifts)
  {
  }

  // ---------------------------------------------------------------------
  // Users table updates

  /** `UPDATE users SET coins = coins + delta WHERE id = ?` */
  function Credit(users: map<string, UserRow>, id: string, delta: int): (r: map<string, UserRow>)
    ensures r.Keys == users.Keys
    ensures id in users ==> r[id] == users[id].(coins := users[id].coins + delta)
  {
    if id in users then users[id := users[id].(coins := users[id].coins + delta)] else users
  }

  /** `UPDATE users SET banned = b WHERE id = ?` */
  function WithBanned(users: map<string, UserRow>, id: string, b: bool): (r: map<string, UserRow>)
    ensures r.Keys == users.Keys
    ensures id in users ==> r[id] == users[id].(banned := b)
  {
    if id in users then users[id := users[id].(banned := b)] else users
  }

  /** No user's balance is below zero. */
  ghost predicate NonNegativeBalances(users: map<string, UserRow>) {
    forall k :: k in users ==> users[k].coins >= 0
  }

  /** A debit guarded by the balance check keeps every balance non-negative. */
  lemma DebitKeepsNonNegative(users: map<string, UserRow>, id: string, cost: int)
    requires id in users && users[id].coins >= cost
    ensures Credit(users, id, -cost)[id].coins >= 0
    ensures NonNegativeBalances(users) ==> NonNegativeBalances(Credit(users, id, -cost))
  {
  }

  /** A balance update touches no other user and no other field of that user's row. */
  lemma CreditFrame(users: map<string, UserRow>, id: string, delta: int)
    ensures forall k :: k in users && k != id ==> Credit(users, id, delta)[k] == users[k]
    ensures id in users ==>
              var row := Credit(users, id, delta)[id];
              row.id == users[id].id && row.username == users[id].username
              && row.role == users[id].role && row.banned == users[id].banned
  {
  }

  /** Setting a ban flag touches no other user and leaves coins, username and role alone. */
  lemma WithBannedFrame(users: map<string, UserRow>, id: string, b: bool)
    ensures forall k :: k in users && k != id ==> WithBanned(users, id, b)[k] == users[k]
    ensures id in users ==>
              var row := WithBanned(users, id, b)[id];
              row.coins == users[id].coins && row.username == users[id].username && row.role == users[id].role
  {
  }

  /** An unguarded update (the admin route) can take a balance below zero. */
  lemma CreditCanOverdraw(users: map<string, UserRow>, id: string, delta: int)
    requires id in users && users[id].coins + delta < 0
    ensures !NonNegativeBalances(Credit(users, id, delta))
  {
    assert Credit(users, id, delta)[id].coins < 0;
  }

  /** Two balance updates of one user add up. */
  lemma CreditCompose(users: map<string, UserRow>, id: string, a: int, b: int)
    ensures Credit(Credit(users, id, a), id, b) == Credit(users, id, a + b)
  {
  }

  /** Setting the ban flag twice is the same as setting it once. */
  lemma WithBannedIdempotent(users: map<string, UserRow>, id: string, b: bool)
    ensures WithBanned(WithBanned(users, id, b), id, b) == WithBanned(users, id, b)
  {
  }

  /** Banning then unbanning gives back the row unchanged when it was unbanned before. */
  lemma BanUnbanRestores(users: map<string, UserRow>, id: string)
    requires id in users && !users[id].banned
    ensures WithBanned(WithBanned(users, id, true), id, false) == users
  {
  }

  // ---------------------------------------------------------------------
  // Gift catalog lookup

  /** `gifts.find(g => g.id === giftId)`: the first gift with that id. */
  function FindGift(gifts: seq<Gift>, giftId: Option<string>): (r: Option<Gift>)
    ensures r.None? <==> giftId.None? || forall g :: g in gifts ==> g.id != giftId.value
    ensures r.Some? ==> r.value in gifts && r.value.id == giftId.value
  {
    if giftId.None? || |gifts| == 0 then None
    else if gifts[0].id == giftId.value then Some(gifts[0])
    else FindGift(gifts[1..], giftId)
  }

  /** With the gift id a key, the gift found is the only one with that id. */
  lemma FindGiftUnique(gifts: seq<Gift>, giftId: Option<string>, g: Gift)
    requires DistinctGiftIds(gifts) && FindGift(gifts, giftId).Some?
    requires g in gifts && g.id == giftId.value
    ensures g == FindGift(gifts, giftId).value
  {
    var f := FindGift(gifts, giftId).value;
    var i :| 0 <= i < |gifts| && gifts[i] == g;
    var k :| 0 <= k < |gifts| && gifts[k] == f;
    assert i == k;
  }

  /** The gift found is the first one in table order with that id. */
  lemma {:induction false} FindGiftFirst(gifts: seq<Gift>, giftId: Option<string>)
    requires FindGift(gifts, giftId).Some?
    ensures exists i :: 0 <= i < |gifts| && gifts[i] == FindGift(gifts, giftId).value
                        && forall j :: 0 <= j < i ==> gifts[j].id != giftId.value
  {
    if gifts[0].id != giftId.value {
      FindGiftFirst(gifts[1..], giftId);
      var i :| 0 <= i < |gifts[1..]| && gifts[1..][i] == FindGift(gifts, giftId).value
               && forall j :: 0 <= j < i ==> gifts[1..][j].id != giftId.value;
      assert gifts[i + 1] == FindGift(gifts, giftId).value;
      assert forall j :: 1 <= j < i + 1 ==> gifts[j] == gifts[1..][j - 1];
    } else {
      assert gifts[0] == FindGift(gifts, giftId).value;
    }
  }

  // ---------------------------------------------------------------------
  // Messages of a room, most recent first, limited, then reversed

  /** `WHERE room = ?`, keeping table order. */
  function InRoom(ms: seq<Message>, room: string): (r: seq<Message>)
    ensures forall m :: m in r <==> m in ms && m.room == room
    ensures multiset(r) <= multiset(ms)
    ensures |r| <= |ms|
  {
    if |ms| == 0 then []
    else
      assert ms == [ms[0]] + ms[1..];
      (if ms[0].room == room then [ms[0]] else []) + InRoom(ms[1..], room)
  }

  ghost predicate SortedDesc(s: seq<Message>) {
    forall i, j :: 0 <= i < j < |s| ==> s[i].time >= s[j].time
  }

  ghost predicate SortedAsc(s: seq<Message>) {
    forall i, j :: 0 <= i < j < |s| ==> s[i].time <= s[j].time
  }

  function InsertDesc(m: Message, s: seq<Message>): (r: seq<Message>)
    requires SortedDesc(s)
    ensures SortedDesc(r)
    ensures multiset(r) == multiset(s) + multiset{m}
    ensures |r| == |s| + 1
    ensures r[0] == m || (|s| > 0 && r[0] == s[0])
  {
    if |s| == 0 || m.time >= s[0].time then
      ConsSortedDesc(m, s);
      [m] + s
    else
      var t := InsertDesc(m, s[1..]);
      assert s == [s[0]] + s[1..];
      ConsSortedDesc(s[0], t);
      [s[0]] + t
  }

  lemma ConsSortedDesc(x: Message, t: seq<Message>)
    requires SortedDesc(t) && (|t| == 0 || t[0].time <= x.time)
    ensures SortedDesc([x] + t)
  {
    var r := [x] + t;
    forall i, j | 0 <= i < j < |r| ensures r[i].time >= r[j].time {
      if i == 0 && j > 1 {
        assert r[j] == t[j - 1] && t[0].time >= t[j - 1].time;
      }
    }
  }

  /** `ORDER BY time DESC`; ties keep an order of the model's choosing. */
  function SortDesc(s: seq<Message>): (r: seq<Message>)
    ensures SortedDesc(r)
    ensures multiset(r) == multiset(s)
    ensures |r| == |s|
  {
    if |s| == 0 then []
    else
      assert s == [s[0]] + s[1..];
      InsertDesc(s[0], SortDesc(s[1..]))
  }

  /** `LIMIT n`; SQLite reads a negative limit as "no limit". */
  function Take(s: seq<Message>, limit: int): (r: seq<Message>)
    ensures limit < 0 || limit >= |s| ==> r == s
    ensures 0 <= limit < |s| ==> r == s[..limit]
  {
    if limit < 0 || limit >= |s| then s else s[..limit]
  }

  /** Array.prototype.reverse. */
  function Reverse(s: seq<Message>): (r: seq<Message>)
    ensures |r| == |s|
    ensures forall i :: 0 <= i < |s| ==> r[i] == s[|s| - 1 - i]
  {
    if |s| == 0 then [] else Reverse(s[1..]) + [s[0]]
  }

  /** `recentMessages(room, limit)` on the messages table `ms`. */
  function Recent(ms: seq<Message>, room: string, limit: int): seq<Message> {
    Reverse(Take(SortDesc(InRoom(ms, room)), limit))
  }

  lemma {:induction false} MultisetMembership(s: seq<Message>, t: seq<Message>, m: Message)
    requires multiset(s) == multiset(t)
    ensures m in s <==> m in t
  {
    assert m in s <==> m in multiset(s);
    assert m in t <==> m in multiset(t);
  }

  /** Only messages of the room are returned, and each comes from the table. */
  lemma RecentFromRoom(ms: seq<Message>, room: string, limit: int)
    ensures forall m :: m in Recent(ms, room, limit) ==> m in ms && m.room == room
  {
    var inRoom := InRoom(ms, room);
    var all := SortDesc(inRoom);
    var t := Take(all, limit);
    forall m | m in Reverse(t) ensures m in ms && m.room == room {
      ReverseMember(t, m);
      TakeMember(all, limit, m);
      MultisetMembership(all, inRoom, m);
    }
  }

  lemma TakeMember(s: seq<Message>, limit: int, m: Message)
    requires m in Take(s, limit)
    ensures m in s
  {
    var k :| 0 <= k < |Take(s, limit)| && Take(s, limit)[k] == m;
    assert s[k] == m;
  }

  /** At most `limit` messages (all of them for a negative limit), fewer only when the room has fewer. */
  lemma RecentCount(ms: seq<Message>, room: string, limit: int)
    ensures var n := |InRoom(ms, room)|;
            |Recent(ms, room, limit)| == if limit < 0 || limit >= n then n else limit
  {
  }

  /** The result is in non-decreasing time order: oldest first. */
  lemma RecentOldestFirst(ms: seq<Message>, room: string, limit: int)
    ensures SortedAsc(Recent(ms, room, limit))
  {
    var all := SortDesc(InRoom(ms, room));
    var t := Take(all, limit);
    assert SortedDesc(t);
  }

  /** Every message of the room left out is no newer than any message returned. */
  lemma RecentAreLatest(ms: seq<Message>, room: string, limit: int)
    ensures var r := Recent(ms, room, limit);
            forall m, x :: m in ms && m.room == room && m !in r && x in r ==> m.time <= x.time
  {
    var all := SortDesc(InRoom(ms, room));
    var t := Take(all, limit);
    var r := Recent(ms, room, limit);
    assert t == all[..|t|];
    forall m, x | m in ms && m.room == room && m !in r && x in r ensures m.time <= x.time {
      MultisetMembership(all, InRoom(ms, room), m);
      ReversedPrefixIsLatest(all, |t|, m, x);
    }
  }

  /** In a newest-first list, whatever lies past the first k is no newer than what the first k hold. */
  lemma ReversedPrefixIsLatest(all: seq<Message>, k: nat, m: Message, x: Message)
    requires SortedDesc(all) && k <= |all|
    requires m in all && m !in Reverse(all[..k]) && x in Reverse(all[..k])
    ensures m.time <= x.time
  {
    var t := all[..k];
    ReverseMember(t, x);
    var i :| 0 <= i < |all| && all[i] == m;
    var j :| 0 <= j < k && t[j] == x;
    if i < k {
      ReverseKeeps(t, i);
    } else {
      assert all[j] == x;
    }
  }

  lemma ReverseKeeps(t: seq<Message>, p: nat)
    requires p < |t|
    ensures t[p] in Reverse(t)
  {
    assert Reverse(t)[|t| - 1 - p] == t[p];
  }

  lemma ReverseMember(t: seq<Message>, x: Message)
    requires x in Reverse(t)
    ensures x in t
  {
    var q :| 0 <= q < |t| && Reverse(t)[q] == x;
    assert t[|t| - 1 - q] == x;
  }

  /** No message is returned more often than the room holds it. */
  lemma RecentSubMultiset(ms: seq<Message>, room: string, limit: int)
    ensures multiset(Recent(ms, room, limit)) <= multiset(InRoom(ms, room))
  {
    var all := SortDesc(InRoom(ms, room));
    ReverseMultiset(Take(all, limit));
    TakeSubMultiset(all, limit);
  }

  lemma TakeSubMultiset(s: seq<Message>, limit: int)
    ensures multiset(Take(s, limit)) <= multiset(s)
  {
    var t := Take(s, limit);
    assert s == t + s[|t|..];
    assert multiset(s) == multiset(t) + multiset(s[|t|..]);
  }

  lemma {:induction false} ReverseMultiset(s: seq<Message>)
    ensures multiset(Reverse(s)) == multiset(s)
  {
    if |s| > 0 {
      ReverseMultiset(s[1..]);
      assert s == [s[0]] + s[1..];
    }
  }
}

=== FILE: wrappers.dfy ===
/** Optional values: a missing row, an absent payload field. */
module Wrappers {
  datatype Option<+T> = None | Some(value: T)
}
